=== FILE: README.md ===
# Mapty workout records and their persistence, in Dafny

Mapty is a browser app: you click a map, fill in a form and log a workout.
This project models its data core, which is the `Workout`, `Running` and
`Cycling` classes and the parts of the `App` class that keep the workout list.

- **Records.** A workout records where it happened, its distance (km) and its
  duration (min). A running workout adds a cadence and a cycling workout adds
  an elevation gain. Each constructor caches one derived metric. For running
  this is the pace (minutes per kilometre). For cycling it is the speed
  (kilometres per hour). Each constructor also sets a description label such
  as `Running on April 14`, and an id made of the last ten digits of the
  millisecond clock.
- **Submission (`_newWorkout`).** The form's numbers are checked to be finite
  and positive. A refused submission raises an alert and changes nothing. An
  accepted one appends a record and saves the whole list.
- **Persistence.** The list is stored under the browser storage key
  `workouts`. Saving overwrites that entry. Loading at start-up dispatches on
  each stored object's `type` tag and re-runs the constructor. An object with
  an unknown tag is left out of the slot rewritten at start-up, but stays in
  the in-memory list, and the next save in that session writes it back.
  Reconstruction recomputes derived fields and never reads the stored ones;
  the in-memory list still holds the stored objects with their stored id,
  label and metric.
  The rebuilt records are written back to storage, while the in-memory list
  keeps the loaded plain objects. Resetting removes the key and reloads.

The modules are:

| module | contents |
|---|---|
| `Optional` | `Option`. |
| `Decimal` | Decimal strings of naturals (`Show`, `Value`) and their round trip. This is what `Date.now() + ''` and `${date.getDate()}` produce. |
| `Description` | The type tag, the month names, the label `Describe`, and a parser that inverts it. |
| `Records` | `Ratio` (the value of a JavaScript division), `IdOf`, `Pace`, `Speed`, the `Workout` datatype and its two constructors. |
| `Validation` | `JsNumber` (what `+input.value` yields), `validInputs`, `allPositive`. |
| `Sequences` | `FlatMap`, the order-keeping "push zero or one result per element" loop. |
| `Store` | The stored field-set and the storage map. Also `Revive`/`Reconstruct`, the load loop and its loop-based `RestoreWorkouts`. |
| `App` | The app `State`, `NewWorkout`, `SetLocalStorage`, `GetLocalStorage`, `Start`, `Reset`. |

The clock is a parameter: a `Moment` holds the month, the day of the month and
the millisecond timestamp. A page reload is a fresh `Start` on the storage that
remains.

## Model

| member | source | states |
|---|---|---|
| Decimal.Show | script.js:14 | The decimal string of a number is canonical: digits only, no leading zero, one character exactly for numbers below ten. `Decimal.ValueOfShow` inverts it. |
| Description.Capitalize | script.js:29 | Upper-casing the first character keeps the length and the rest of the string. |
| Description.Describe | script.js:24-32 | The label starts with `R` or `C` for the variant and has ` on ` at positions 7-10. It ends with the day's decimal string, and its length is 12 plus the month name's and the day's. `Description.DescriptionRoundTrip` and `Description.ParseSound` pin the rest. |
| Validation.ValidInputs | script.js:180-181 | `validInputs` holds exactly when every input is a finite number. |
| Validation.AllPositive | script.js:184 | `allPositive` holds exactly when every input is a positive finite number or +Infinity. |
| Store.ToFields | script.js:343 | The stored object carries the record's tag, id, position, distance, duration and label, plus its own variant's measure and metric only. |
| Store.Serialize | script.js:343 | Saving writes one stored object per list entry, in order: a record's field-set, or a loaded object as it was. |
| Store.Reconstruct | script.js:357-383 | The loop yields no more records than there are stored objects. `Store.ReconstructShape` and `Store.ReconstructKeepsOrder` give the rest. |
| Store.RevivedByTag | script.js:361-382 | The loop body pushes a running record for `running`, a cycling record for `cycling`, and nothing for any other tag. |
| App.Start | script.js:91-96 | After construction the list is empty when nothing is stored, and otherwise is the stored objects one for one. The storage keeps its keys, and keys other than `workouts` keep their values. |
| App.ReloadOne | script.js:347-386 | A start on a slot holding one record's field-set shows that object and rewrites the slot with the record rebuilt at the start moment. |
| Records.Quotient | script.js:48 | A division yields a finite value exactly when the divisor is non-zero, and that value times the divisor gives back the dividend. |
| Records.IdOf | script.js:14 | The id is exactly the last ten characters of the timestamp's decimal string, or all of it when it is shorter; leading zeros of those ten are kept. Its characters are digits and denote the timestamp modulo 10^10. |
| Records.Pace | script.js:46-50 | The pace is finite exactly when the distance is non-zero. Pace times distance equals the duration. |
| Records.Speed | script.js:64-68 | The speed is finite exactly when the duration is non-zero. Speed times the duration in minutes equals 60 times the distance. |
| Records.MakeRunning | script.js:36-44 | A new running record keeps the given position, distance, duration and cadence. Its date is the construction moment, its pace is `Pace(distance, duration)`, and its id and label match that moment. |
| Records.MakeCycling | script.js:54-62 | A new cycling record keeps the given position, distance, duration and elevation gain. Its date is the construction moment, its speed is `Speed(distance, duration)`, and its id and label match that moment. |
| Records.MetricExamples | script.js:46-68 | 5 km in 30 min gives a pace of 6 min/km. 20 km in 60 min gives 20 km/h. |
| Decimal.ValueOfShow | script.js:14 | Reading back the decimal string of a timestamp gives the timestamp. |
| Decimal.ShowOfValue | script.js:14 | A canonical digit string (no leading zero) is the decimal string of its own value. |
| Decimal.ShowInjective | script.js:14 | Different numbers have different decimal strings. |
| Decimal.ValueOfSuffix | script.js:14 | The last k digits of a digit string denote its value modulo 10^k. This is what `slice(-10)` keeps. |
| Description.CapitalizedTags | script.js:29 | The labels start with `Running` and `Cycling`. |
| Description.MonthNamesDistinct | script.js:26 | The twelve month names are pairwise distinct. |
| Description.DescriptionRoundTrip | script.js:24-32 | Parsing a label gives back the variant, the month and the day it was built from. |
| Description.DescribeInjective | script.js:24-32 | Two labels are equal only if they were built from the same variant, month and day. |
| Description.DescribeRunningExample | script.js:29-31 | A run on 14 April is labelled `Running on April 14`. |
| Description.DescribeCyclingExample | script.js:29-31 | A ride on 5 December is labelled `Cycling on December 5`. |
| Validation.AcceptsIffFinitePositive | script.js:180-184 | `validInputs` and `allPositive` together admit exactly the inputs that are all finite and strictly positive. |
| Validation.BothChecksNeeded | script.js:201-204 | Neither check alone is enough: +Infinity passes `allPositive` only, and -1 passes `validInputs` only. |
| Validation.ZeroElevationRejected | script.js:217-221 | A ride with zero elevation gain is refused. |
| App.NewRecord | script.js:195-225 | On accepted inputs, the selected branch builds a well-formed record of the selected variant. It has the clicked position and the form's own numbers, all positive. |
| App.NewWorkout | script.js:178-241 | A submission goes through exactly when the three inputs of the selected variant are finite and positive. A refusal raises the alert and leaves the state unchanged. Acceptance appends exactly one record at the end, leaves earlier entries as they were, and stores the new list. |
| App.SetLocalStorage | script.js:342-344 | Saving stores the whole list under `workouts`. The list and every other key stay unchanged. |
| App.SaveIdempotent | script.js:342-344 | Saving twice leaves the same state as saving once. |
| App.GetLocalStorage | script.js:347-392 | Without a stored entry, loading changes nothing. Otherwise the in-memory list is the stored objects as they are, and the slot is rewritten with the records rebuilt at the loading moment, no more entries than it had. Reading the rewritten slot later gives the same records as reading the original. Other keys are untouched. |
| App.StartWithoutData | script.js:348-351 | A start without stored workouts has an empty list and writes nothing. |
| App.StartWithData | script.js:353-386 | A start with stored workouts keeps the stored objects in memory. It writes back exactly the records rebuilt at the start moment. |
| App.Reset | script.js:406-409 | After a reset the list is empty, `workouts` is gone from storage, and every other key keeps its value. |
| App.StartKeepsOnlyKnownTags | script.js:357-386 | The slot rewritten at start-up holds only objects tagged `running` or `cycling`. |
| App.UnknownTagWrittenBack | script.js:354-386 | An object with an unknown tag is missing from the slot rewritten at start-up, yet the next accepted submission writes it back. |
| App.StartKeepsStoredFields | script.js:354 | After a start, each in-memory entry carries the stored object's own id, label and metric, not recomputed ones. |
| App.SubmitAfterLoadRestoresStoredFields | script.js:354 | The first save after a load writes the loaded objects back as they were, not the rebuilt records, followed by the new one. |
| App.FirstSubmitSaves | script.js:228-240 | On a fresh start, the first accepted submission leaves exactly its own field-set under `workouts`. |
| App.SubmitThenReload | script.js:228-240 | Logging a first workout and reloading shows the saved object. The slot then holds that record rebuilt at the reload, with the same base fields and metric. |
| Store.SerializeSnoc | script.js:343 | Saving a list with one more entry at the end writes exactly one more object at the end, after the objects the shorter list writes. |
| Store.SetItem | script.js:343 | Setting a key makes it hold exactly the given list and keeps the other keys. |
| Store.RemoveItem | script.js:401 | Removing a key makes it absent and keeps the other keys. |
| Store.SetItemOverwrites | script.js:343 | A second `setItem` on the same key replaces the first entirely. |
| Store.RemoveAfterSet | script.js:401-402 | Removing a key undoes any earlier `setItem` on it. |
| Store.Revive | script.js:361-382 | A stored object gives a record exactly when its tag is `running` or `cycling`. The record has that tag, the stored position, distance, duration and measure, and is well-formed for the loading moment. |
| Store.ReconstructShape | script.js:357-383 | Reconstruction gives at most one record per stored object. It gives exactly one per object when every tag is known. Every record is well-formed and dated at the loading moment. |
| Store.ReconstructAppend | script.js:360-383 | Reconstruction works entry by entry: it distributes over concatenation. |
| Store.ReconstructKeepsOrder | script.js:359-383 | A stored object with a known tag becomes the record right after the records rebuilt from the objects before it. An object with an unknown tag adds nothing. |
| Store.ReconstructIgnoresDerived | script.js:363-381 | Stored ids, paces, speeds and labels are never read: lists that agree on the base fields reconstruct identically. |
| Store.RestampKeeps | script.js:36-62 | Re-running a constructor on a record's own fields keeps its variant, base fields and metric. Only the date, id and label change. |
| Store.SaveThenReconstruct | script.js:343-383 | Saving records and loading them gives the same number of records in the same order. Each record is re-run through its constructor at the loading moment. |
| Store.ReconstructTwice | script.js:386 | Loading the rebuilt list written back at start-up gives the same records as loading the original stored list. |
| Store.RestoreWorkouts | script.js:357-383 | The `forEach`/`push` loop computes `Reconstruct`. Its result is no longer than the stored list, and every record in it is well-formed and dated now. |
| Store.GetItem | script.js:348 | Reading a key yields a value exactly when the key is present, and then its stored list. |
| Description.MonthName | script.js:26 | Every month name has between three and nine letters and no space. |
| Description.WorkoutType.Tag | script.js:37-55 | The tag is `running` or `cycling`, seven letters long, and begins with `r` exactly for the running variant. |
| Description.ParseSound | script.js:24-32 | Every string the label parser accepts is exactly the label of the variant, month and day it returns. |
| Validation.IsFinite | script.js:181 | `Number.isFinite` holds exactly for values other than NaN and the two infinities. |
| Validation.GreaterThanZero | script.js:184 | `inp > 0` is false for NaN and -Infinity, true for +Infinity, and compares the value with zero otherwise. |
| App.Inputs | script.js:202-203 | The checks see three inputs: distance and duration, then the cadence for running or the elevation gain for cycling (script.js:218-219). |
| Sequences.FlatMapFull | script.js:360-383 | When each element adds at most one result, the output is as long as the input exactly when every element adds one. |

## Behaviour as written

In a few places the code does less than one would naturally expect of it. The
model follows the code:

- Loading is not read-only. Every start with stored workouts rewrites the
  `workouts` entry with the rebuilt records (script.js:386). The rebuilt
  records carry fresh ids, dates and labels.
- The in-memory list after a load holds the stored plain objects, not the
  rebuilt records (script.js:354). So the first save after a load writes the
  old stored objects back, plus the new record. This is stated as
  `App.SubmitAfterLoadRestoresStoredFields`.
- The slot rewritten at start-up does not round-trip ids, dates or labels:
  each comes from the loading moment (`Store.SaveThenReconstruct`). This
  lasts only until the next save, which writes the stored objects back with
  their stored ids and labels (`App.SubmitAfterLoadRestoresStoredFields`).
  The in-memory list, which the sidebar renders, keeps the stored id, label
  and metric throughout (`App.StartKeepsStoredFields`).
- An object with an unknown `type` tag is silently left out of the slot
  rewritten at start-up (script.js:386). It stays in the in-memory list
  (script.js:354), so the next accepted submission in that session writes it
  back (script.js:228, 343). This is stated as `App.UnknownTagWrittenBack`.
- There is no recovery from undecodable stored text: `JSON.parse` throws
  (script.js:348). Such text is outside the model's storage type.
- A zero elevation gain is refused like any non-positive input
  (`Validation.ZeroElevationRejected`), although a flat ride is real.

## Left out

- The map (Leaflet), markers, popups, geolocation, the DOM, form toggling,
  list rendering and `_moveToPopup` are left out. They only display or
  navigate and do not change the workout list or storage.
- `location.reload()` is not modelled as such. A reload is modelled as a
  fresh `App.Start` on the remaining storage.
- The JSON text is not modelled. Storage holds the decoded field-sets, so a
  field-set stands for what `JSON.parse(JSON.stringify(record))` yields.
- The stored ISO `date` string is not kept, because nothing reads it back.
- Undecodable text in the slot and hand-edited objects with missing or
  non-number base fields are outside the storage type.
- IEEE floating point is modelled as exact reals. Rounding is not modelled.
  Infinity and NaN from a division by zero are one `Ratio.NonFinite` value,
  which JSON would write as `null`.
- Text-to-number conversion of the form fields is left out. The form gives
  `JsNumber`s directly.
- A form type other than the two options of the select is left out. In the
  code that would push `undefined` and then fail.
- `Store.Reconstruct`: one `Moment` serves the whole load loop. In the
  browser the clock may tick between iterations, and records rebuilt in one
  load can then get different ids. The model gives them all the same moment.
- `Description.Capitalize`: `toUpperCase` is modelled on ASCII letters only.
  The tags it is applied to are ASCII.
- Calendar validity of the day of the month (for example 31 February) is not
  checked. The day is any value from 1 to 31.
- A timestamp is a natural number. Dates before 1970 are left out.

=== FILE: app.dfy ===
/**
  The state the `App` class keeps that this model covers: the `#workouts`
  list and the browser storage. Submitting the form (`_newWorkout`), loading
  at start-up (`_getLocalStorage`), saving (`_setLocalStorage`) and resetting
  (`reset` and the close button) are functions from state to state; the clock
  is a `Moment` parameter and the page reload is a fresh start.
 */
module App {
  import opened Optional
  import opened Description
  import opened Records
  import opened Store
  import opened Validation

  datatype State = State(workouts: seq<Entry>, storage: Storage)

  /** The form as `_newWorkout` reads it: the selected type, the clicked position and the numeric inputs. */
  datatype Form = Form(workoutType: WorkoutType, at: Coords,
                       distance: JsNumber, duration: JsNumber, cadence: JsNumber, elevation: JsNumber)

  const InvalidInputsAlert: string := "Inputs have to be positive numbers!"

  /** The state after a submission, and the alert shown when it was refused. */
  datatype Outcome = Outcome(app: State, alert: Option<string>)

  /** The three numbers the selected branch checks: distance, duration and cadence or elevation. */
  function Inputs(form: Form): (xs: seq<JsNumber>)
    ensures |xs| == 3
    ensures xs[0] == form.distance && xs[1] == form.duration
    ensures xs[2] == if form.workoutType == RunningType then form.cadence else form.elevation
  {
    [form.distance, form.duration,
     if form.workoutType == RunningType then form.cadence else form.elevation]
  }

  /** `_setLocalStorage`: the whole list is written under "workouts"; the list and the other keys stay. */
  function SetLocalStorage(app: State): (r: State)
    ensures r.workouts == app.workouts
    ensures GetItem(r.storage, Key) == Some(Serialize(app.workouts))
    ensures r.storage.Keys == app.storage.Keys + {Key}
    ensures forall k :: k in app.storage && k != Key ==> r.storage[k] == app.storage[k]
  {
    State(app.workouts, SetItem(app.storage, Key, Serialize(app.workouts)))
  }

  /** Saving twice is saving once: each save replaces the stored list entirely. */
  lemma SaveIdempotent(app: State)
    ensures SetLocalStorage(SetLocalStorage(app)) == SetLocalStorage(app)
  {
    SetItemOverwrites(app.storage, Key, Serialize(app.workouts), Serialize(app.workouts));
  }

  /** The record the selected branch of `_newWorkout` constructs from accepted inputs, at moment `now`. */
  function NewRecord(form: Form, now: Moment): (w: Workout)
    requires Accepts(Inputs(form))
    ensures w.Type() == form.workoutType && w.date == now && w.coords == form.at
    ensures form.distance == Num(w.distance) && form.duration == Num(w.duration)
    ensures w.Running? ==> w.cadence.Some? && form.cadence == Num(w.cadence.value)
    ensures w.Cycling? ==> w.elevationGain.Some? && form.elevation == Num(w.elevationGain.value)
    ensures w.distance > 0.0 && w.duration > 0.0
    ensures WellFormed(w)
  {
    var xs := Inputs(form);
    assert IsFinite(xs[0]) && IsFinite(xs[1]) && IsFinite(xs[2]);
    assert GreaterThanZero(xs[0]) && GreaterThanZero(xs[1]);
    match form.workoutType
    case RunningType =>
      MakeRunning(now, form.at, form.distance.value, form.duration.value, Some(form.cadence.value))
    case CyclingType =>
      MakeCycling(now, form.at, form.distance.value, form.duration.value, Some(form.elevation.value))
  }

  /**
    `_newWorkout`: refused with an alert and no change unless the three checked
    inputs are finite and positive; otherwise one record is appended at the end
    of the list, earlier entries untouched, and the whole list is saved.
   */
  function NewWorkout(app: State, form: Form, now: Moment): (r: Outcome)
    ensures r.alert.None? <==> forall i :: 0 <= i < 3 ==> Inputs(form)[i].Num? && Inputs(form)[i].value > 0.0
    ensures r.alert.Some? ==> r.alert.value == InvalidInputsAlert && r.app == app
    ensures r.alert.None? ==>
              && |r.app.workouts| == |app.workouts| + 1
              && r.app.workouts[..|app.workouts|] == app.workouts
              && GetItem(r.app.storage, Key) == Some(Serialize(r.app.workouts))
    ensures r.alert.None? ==> Accepts(Inputs(form)) && r.app.workouts[|app.workouts|] == Live(NewRecord(form, now))
    ensures r.alert.None? ==>
              && r.app.storage.Keys == app.storage.Keys + {Key}
              && forall k :: k in app.storage && k != Key ==> r.app.storage[k] == app.storage[k]
  {
    AcceptsIffFinitePositive(Inputs(form));
    if !Accepts(Inputs(form)) then Outcome(app, Some(InvalidInputsAlert))
    else
      var w := NewRecord(form, now);
      var saved := SetLocalStorage(State(app.workouts + [Live(w)], app.storage));
      assert saved.workouts[..|app.workouts|] == app.workouts;
      Outcome(saved, None)
  }

  /**
    `_getLocalStorage`: with nothing stored, nothing changes. Otherwise the
    list becomes the stored field-sets themselves, and the slot is rewritten
    with the reconstructed records, which a later load turns into the same
    records as the original field-sets would give.
   */
  function GetLocalStorage(app: State, now: Moment): (r: State)
    ensures Key !in app.storage ==> r == app
    ensures Key in app.storage ==>
              && Serialize(r.workouts) == app.storage[Key]
              && (forall i :: 0 <= i < |r.workouts| ==> r.workouts[i].Raw?)
              && Key in r.storage
              && r.storage[Key] == Serialize(Lives(Reconstruct(app.storage[Key], now)))
              && |r.storage[Key]| <= |app.storage[Key]|
              && (forall later: Moment :: Reconstruct(r.storage[Key], later) == Reconstruct(app.storage[Key], later))
    ensures r.storage.Keys == app.storage.Keys
    ensures forall k :: k in app.storage && k != Key ==> r.storage[k] == app.storage[k]
  {
    match GetItem(app.storage, Key)
    case None => app
    case Some(data) =>
      var fixed := Reconstruct(data, now);
      ReconstructShape(data, now);
      SerializeRaws(data);
      assert forall later: Moment :: Reconstruct(Serialize(Lives(fixed)), later) == Reconstruct(data, later) by {
        forall later: Moment {
          ReconstructTwice(data, now, later);
        }
      }
      State(Raws(data), SetItem(app.storage, Key, Serialize(Lives(fixed))))
  }

  /** The `App` constructor's effect on the list: start empty, then load. */
  function Start(storage: Storage, now: Moment): (r: State)
    ensures Key !in storage ==> r.workouts == []
    ensures Key in storage ==>
              && |r.workouts| == |storage[Key]|
              && forall i :: 0 <= i < |r.workouts| ==> r.workouts[i] == Raw(storage[Key][i])
    ensures r.storage.Keys == storage.Keys
    ensures forall k :: k in storage && k != Key ==> r.storage[k] == storage[k]
  {
    GetLocalStorage(State([], storage), now)
  }

  /** A first start, or a start after a reset, has an empty list and writes nothing. */
  lemma StartWithoutData(storage: Storage, now: Moment)
    requires Key !in storage
    ensures Start(storage, now) == State([], storage)
  {
  }

  /**
    Starting on stored field-sets shows them as stored, and the slot afterwards
    holds one freshly built record per entry with a known tag, in order.
   */
  lemma StartWithData(storage: Storage, now: Moment)
    requires Key in storage
    ensures var r := Start(storage, now);
            && Serialize(r.workouts) == storage[Key]
            && r.storage[Key] == Serialize(Lives(Reconstruct(storage[Key], now)))
  {
    SerializeRaws(storage[Key]);
  }

  /**
    `reset` and the close button: the "workouts" entry is removed and the page
    reloads, so the app starts again with an empty list; other keys stay.
   */
  function Reset(app: State, now: Moment): (r: State)
    ensures r.workouts == []
    ensures Key !in r.storage
    ensures r.storage.Keys == app.storage.Keys - {Key}
    ensures forall k :: k in r.storage ==> r.storage[k] == app.storage[k]
  {
    Start(RemoveItem(app.storage, Key), now)
  }

  /**
    The first save after a load writes back the field-sets that were loaded,
    not the records rebuilt from them: the slot then holds the stored list as
    it was plus the new record.
   */
  lemma SubmitAfterLoadRestoresStoredFields(storage: Storage, now: Moment, form: Form, later: Moment)
    requires Key in storage
    requires Accepts(Inputs(form))
    ensures var r := NewWorkout(Start(storage, now), form, later);
            && r.alert.None?
            && GetItem(r.app.storage, Key) == Some(storage[Key] + [ToFields(NewRecord(form, later))])
  {
    var loaded := Start(storage, now);
    StartWithData(storage, now);
    AcceptsIffFinitePositive(Inputs(form));
    var w := NewRecord(form, later);
    var r := NewWorkout(loaded, form, later);
    assert r.app.workouts == loaded.workouts + [Live(w)];
    SerializeSnoc(loaded.workouts, Live(w));
  }

  /**
    The in-memory list after a start keeps the stored objects' own ids,
    labels and metrics; only the rewritten slot gets recomputed ones.
   */
  lemma StartKeepsStoredFields(storage: Storage, now: Moment, i: nat)
    requires Key in storage && i < |storage[Key]|
    ensures var w := Start(storage, now).workouts;
            && i < |w| && w[i].Raw?
            && w[i].fields.id == storage[Key][i].id
            && w[i].fields.description == storage[Key][i].description
            && w[i].fields.pace == storage[Key][i].pace
            && w[i].fields.speed == storage[Key][i].speed
  {
  }

  /** The slot a start rewrites holds only objects with a known tag: the rebuilt records. */
  lemma StartKeepsOnlyKnownTags(storage: Storage, now: Moment)
    requires Key in storage
    ensures forall f :: f in Start(storage, now).storage[Key] ==> KnownTag(f)
  {
    StartWithData(storage, now);
    var ws := Reconstruct(storage[Key], now);
    forall f | f in Serialize(Lives(ws)) ensures KnownTag(f) {
      var j :| 0 <= j < |ws| && Serialize(Lives(ws))[j] == f;
      assert f == ToFields(ws[j]);
    }
  }

  /**
    An object with an unknown tag is left out of the slot rewritten at start-up
    but stays in the in-memory list, so the next accepted submission in that
    session writes it back.
   */
  lemma UnknownTagWrittenBack(storage: Storage, now: Moment, form: Form, later: Moment, i: nat)
    requires Key in storage && i < |storage[Key]|
    requires !KnownTag(storage[Key][i])
    requires Accepts(Inputs(form))
    ensures storage[Key][i] !in Start(storage, now).storage[Key]
    ensures storage[Key][i] in NewWorkout(Start(storage, now), form, later).app.storage[Key]
  {
    StartKeepsOnlyKnownTags(storage, now);
    SubmitAfterLoadRestoresStoredFields(storage, now, form, later);
    var written := storage[Key] + [ToFields(NewRecord(form, later))];
    assert written[i] == storage[Key][i];
  }

  /** On a fresh start, the first accepted submission leaves exactly its own field-set in the slot. */
  lemma FirstSubmitSaves(storage: Storage, form: Form, now: Moment)
    requires Key !in storage
    requires Accepts(Inputs(form))
    ensures var r := NewWorkout(Start(storage, now), form, now);
            && r.alert.None?
            && Key in r.app.storage
            && r.app.storage[Key] == [ToFields(NewRecord(form, now))]
  {
    StartWithoutData(storage, now);
    AcceptsIffFinitePositive(Inputs(form));
    var w := NewRecord(form, now);
    assert Serialize([Live(w)]) == [ToFields(w)];
  }

  /**
    A first workout logged on a fresh start and the page reloaded: the list
    shows the saved object, and the slot now holds the record rebuilt at the
    reload, with the same base fields and metric but the reload's id and label.
   */
  lemma SubmitThenReload(storage: Storage, form: Form, now: Moment, later: Moment)
    requires Key !in storage
    requires Accepts(Inputs(form))
    ensures var w := NewRecord(form, now);
            var r := Start(NewWorkout(Start(storage, now), form, now).app.storage, later);
            && r.workouts == [Raw(ToFields(w))]
            && r.storage[Key] == [ToFields(Restamp(w, later))]
  {
    FirstSubmitSaves(storage, form, now);
    ReloadOne(NewWorkout(Start(storage, now), form, now).app.storage, NewRecord(form, now), later);
  }

  /** A start on a slot holding one record's field-set shows that field-set and rewrites the slot with the record restamped. */
  lemma ReloadOne(storage: Storage, w: Workout, later: Moment)
    requires Key in storage && storage[Key] == [ToFields(w)]
    ensures Start(storage, later).workouts == [Raw(ToFields(w))]
    ensures Start(storage, later).storage[Key] == [ToFields(Restamp(w, later))]
  {
    assert storage[Key] == Serialize(Lives([w]));
    ReconstructSaved(w, later);
    StartWithData(storage, later);
  }
}

=== FILE: decimal.dfy ===
/**
  Decimal rendering of non-negative integers, and the value of a digit string
  read back. JavaScript's number-to-string conversion (`n + ''`) writes
  integers this way below 10^21 only (from there it writes `1e+21`); every
  `Date.now()` value (at most 8.64e15 ms) and every day of the month is below
  that bound. Used for the day of month in a workout's description and for its id.
 */
module Decimal {

  predicate IsDigit(c: char) {
    '0' <= c <= '9'
  }

  predicate AllDigits(s: string) {
    forall i :: 0 <= i < |s| ==> IsDigit(s[i])
  }

  /** A digit string as the conversion produces it: non-empty, no leading zero unless it is "0". */
  predicate Canonical(s: string) {
    && |s| > 0
    && AllDigits(s)
    && (s[0] == '0' ==> |s| == 1)
  }

  function DigitChar(d: nat): (c: char)
    requires d < 10
    ensures IsDigit(c)
  {
    (48 + d) as char
  }

  function DigitValue(c: char): (d: nat)
    requires IsDigit(c)
    ensures d < 10
    ensures DigitChar(d) == c
  {
    c as int - 48
  }

  function Pow10(k: nat): (p: nat)
    ensures p >= 1
  {
    if k == 0 then 1 else 10 * Pow10(k - 1)
  }

  /** The decimal string of `n`, most significant digit first. */
  function Show(n: nat): (s: string)
    ensures Canonical(s)
    ensures n < 10 <==> |s| == 1
  {
    if n < 10 then [DigitChar(n)]
    else
      var p := Show(n / 10);
      p + [DigitChar(n % 10)]
  }

  /** The number a digit string denotes (leading zeros allowed); it has fewer digits than the string has places. */
  function Value(s: string): (v: nat)
    requires AllDigits(s)
    ensures v < Pow10(|s|)
  {
    if s == [] then 0
    else Value(s[..|s| - 1]) * 10 + DigitValue(s[|s| - 1])
  }

  lemma ValueSnoc(p: string, c: char)
    requires AllDigits(p) && IsDigit(c)
    ensures AllDigits(p + [c])
    ensures Value(p + [c]) == Value(p) * 10 + DigitValue(c)
  {
    assert (p + [c])[..|p|] == p;
  }

  /** Reading back what `Show` writes gives the number. */
  lemma {:induction false} ValueOfShow(n: nat)
    ensures Value(Show(n)) == n
  {
    if n >= 10 {
      ValueOfShow(n / 10);
      ValueSnoc(Show(n / 10), DigitChar(n % 10));
    }
  }

  lemma {:induction false} ZeroValueAllZeros(s: string)
    requires AllDigits(s)
    requires Value(s) == 0
    ensures forall i :: 0 <= i < |s| ==> s[i] == '0'
  {
    if s != [] {
      ZeroValueAllZeros(s[..|s| - 1]);
      assert DigitValue(s[|s| - 1]) == 0;
    }
  }

  /** Every canonical digit string is what `Show` writes for its value. */
  lemma {:induction false} ShowOfValue(s: string)
    requires Canonical(s)
    ensures Show(Value(s)) == s
  {
    var last := s[|s| - 1];
    if |s| == 1 {
      assert s == [last];
    } else {
      var p := s[..|s| - 1];
      assert p[0] == s[0];
      ShowOfValue(p);
      if Value(p) == 0 {
        ZeroValueAllZeros(p);
        assert false;
      }
      var v := Value(s);
      assert v == Value(p) * 10 + DigitValue(last);
      assert v / 10 == Value(p) && v % 10 == DigitValue(last);
      assert s == p + [last];
    }
  }

  /** Two numbers have the same decimal string only when they are equal. */
  lemma ShowInjective(m: nat, n: nat)
    requires Show(m) == Show(n)
    ensures m == n
  {
    ValueOfShow(m);
    ValueOfShow(n);
  }

  lemma {:induction false} ValueConcat(p: string, q: string)
    requires AllDigits(p) && AllDigits(q)
    ensures AllDigits(p + q)
    ensures Value(p + q) == Value(p) * Pow10(|q|) + Value(q)
  {
    if q == [] {
      assert p + q == p;
    } else {
      var q' := q[..|q| - 1];
      var c := q[|q| - 1];
      assert q == q' + [c];
      assert AllDigits(q') by {
        forall i | 0 <= i < |q'| ensures IsDigit(q'[i]) {
          assert q'[i] == q[i];
        }
      }
      ValueConcat(p, q');
      assert p + q == (p + q') + [c] by {
        assert p + (q' + [c]) == (p + q') + [c];
      }
      ValueSnoc(p + q', c);
      ValueSnoc(q', c);
      Regroup(Value(p), Pow10(|q'|), Value(q'), DigitValue(c), Value(p + q), Value(q), Pow10(|q|));
    }
  }

  lemma Regroup(a: int, b: int, v: int, d: int, x: int, y: int, z: int)
    requires x == (a * b + v) * 10 + d && y == v * 10 + d && z == 10 * b
    ensures x == a * z + y
  {
  }

  lemma AtLeastOnce(d: int, m: nat)
    requires d >= 1
    ensures d * m >= m
  {
    assert d * m == (d - 1) * m + m;
  }

  /** Euclidean division of `a * m + r` by `m` recovers `a` and `r` when `r < m`. */
  lemma ModOfMultiplePlus(a: nat, m: nat, r: nat)
    requires 0 <= r < m
    ensures (a * m + r) % m == r
    ensures (a * m + r) / m == a
  {
    var x := a * m + r;
    var q, s := x / m, x % m;
    assert x == q * m + s;
    if q > a {
      AtLeastOnce(q - a, m);
      assert false;
    } else if q < a {
      AtLeastOnce(a - q, m);
      assert false;
    }
  }

  lemma ValueModOfConcat(p: string, q: string)
    requires AllDigits(p) && AllDigits(q)
    ensures AllDigits(p + q)
    ensures Value(p + q) % Pow10(|q|) == Value(q)
  {
    ValueConcat(p, q);
    ModOfMultiplePlus(Value(p), Pow10(|q|), Value(q));
  }

  /** The last `k` digits of a digit string denote its value modulo 10^k. */
  lemma ValueOfSuffix(s: string, k: nat)
    requires AllDigits(s)
    requires k <= |s|
    ensures Value(s[|s| - k..]) == Value(s) % Pow10(k)
  {
    var i := |s| - k;
    assert s == s[..i] + s[i..];
    ValueModOfConcat(s[..i], s[i..]);
  }

  lemma {:induction false} Pow10Monotone(i: nat, j: nat)
    requires i <= j
    ensures Pow10(i) <= Pow10(j)
  {
    if i < j {
      Pow10Monotone(i, j - 1);
    }
  }

  lemma ModOfSmaller(n: nat, m: nat)
    requires n < m
    ensures n % m == n
  {
    ModOfMultiplePlus(0, m, n);
  }

  /** A number with at most `k` digits is its own remainder modulo 10^k. */
  lemma ShortValue(n: nat, k: nat)
    requires |Show(n)| <= k
    ensures n % Pow10(k) == n
  {
    ValueOfShow(n);
    Pow10Monotone(|Show(n)|, k);
    ModOfSmaller(n, Pow10(k));
  }
}

=== FILE: description.dfy ===
/**
  The sidebar label of a workout (`Workout._setDescription`): the type tag with
  its first character upper-cased, " on ", the English month name and the day
  of month, as in "Running on April 14". `ParseDescription` reads a label back;
  the round-trip lemma shows that a label determines its type, month and day.
 */
module Description {
  import opened Optional
  import opened Decimal

  /** The two closed workout variants; `Tag` is the `type` field each class sets. */
  datatype WorkoutType = RunningType | CyclingType {
    function Tag(): (t: string)
      ensures |t| == 7
      ensures t == "running" || t == "cycling"
      ensures RunningType? <==> t[0] == 'r'
    {
      if RunningType? then "running" else "cycling"
    }
  }

  /** `Date.getMonth()`: 0 for January through 11 for December. */
  type MonthIndex = m: int | 0 <= m < 12

  /** `Date.getDate()`: the day of the month. */
  type DayOfMonth = d: int | 1 <= d <= 31 witness 1

  const Months: seq<string> :=
    ["January", "February", "March", "April", "May", "June", "July",
     "August", "September", "October", "November", "December"]

  predicate NoSpace(s: string) {
    forall i :: 0 <= i < |s| ==> s[i] != ' '
  }

  /** The English name of a month; every month index has one. */
  function MonthName(m: MonthIndex): (name: string)
    ensures 3 <= |name| <= 9
    ensures NoSpace(name)
  {
    assert |Months| == 12;
    Months[m]
  }

  /** `toUpperCase` on one character; only the ASCII letters a-z change. */
  function ToUpper(c: char): (u: char)
    ensures 'a' <= c <= 'z' ==> u as int == c as int - 32
    ensures !('a' <= c <= 'z') ==> u == c
  {
    if 'a' <= c <= 'z' then (c as int - 32) as char else c
  }

  /** `s[0].toUpperCase() + s.slice(1)`. */
  function Capitalize(s: string): (r: string)
    requires |s| > 0
    ensures |r| == |s|
    ensures r[0] == ToUpper(s[0])
    ensures r[1..] == s[1..]
  {
    [ToUpper(s[0])] + s[1..]
  }

  /** The label `_setDescription` builds for a workout of type `t` created in month `m` on day `d`. */
  function Describe(t: WorkoutType, m: MonthIndex, d: nat): (text: string)
    ensures |text| == 12 + |MonthName(m)| + |Show(d)|
    ensures text[0] == if t == RunningType then 'R' else 'C'
    ensures text[7..11] == " on "
    ensures text[|text| - |Show(d)|..] == Show(d)
  {
    Capitalize(t.Tag()) + " on " + MonthName(m) + " " + Show(d)
  }

  /** The first month at or after `from` whose name followed by a space starts `rest`. */
  function FindMonth(rest: string, from: nat): (r: Option<MonthIndex>)
    requires from <= 12
    ensures r.Some? ==> from <= r.value && MonthName(r.value) + " " <= rest
    ensures r.None? ==> forall m: MonthIndex :: from <= m ==> !(MonthName(m) + " " <= rest)
    decreases 12 - from
  {
    if from == 12 then None
    else if MonthName(from) + " " <= rest then Some(from)
    else FindMonth(rest, from + 1)
  }

  /** The type whose capitalised tag followed by " on " is `head`. */
  function ParseType(head: string): (r: Option<WorkoutType>)
  {
    if head == Capitalize(RunningType.Tag()) + " on " then Some(RunningType)
    else if head == Capitalize(CyclingType.Tag()) + " on " then Some(CyclingType)
    else None
  }

  /** The month and day of a "<Month name> <day>" text. */
  function ParseDate(rest: string): (r: Option<(MonthIndex, nat)>)
  {
    match FindMonth(rest, 0)
    case None => None
    case Some(m) =>
      var digits := rest[|MonthName(m)| + 1..];
      if Canonical(digits) then Some((m, Value(digits))) else None
  }

  /** Reads a label back into its workout type, month and day, or `None` when it is not of that shape. */
  function ParseDescription(s: string): (r: Option<(WorkoutType, MonthIndex, nat)>)
  {
    if |s| < 11 then None
    else
      match (ParseType(s[..11]), ParseDate(s[11..]))
      case (Some(t), Some((m, d))) => Some((t, m, d))
      case _ => None
  }

  lemma CapitalizedTags()
    ensures Capitalize(RunningType.Tag()) == "Running"
    ensures Capitalize(CyclingType.Tag()) == "Cycling"
  {
    assert Capitalize("running") == "R" + "unning";
    assert Capitalize("cycling") == "C" + "ycling";
  }

  lemma MonthNamesDistinct(i: MonthIndex, j: MonthIndex)
    requires i != j
    ensures MonthName(i) != MonthName(j)
  {
  }

  /** If `a + " "` is a prefix of `b + " " + tail` and neither word contains a space, then `a == b`. */
  lemma SpaceEndedPrefix(a: string, b: string, tail: string)
    requires NoSpace(a) && NoSpace(b)
    requires a + " " <= b + " " + tail
    ensures a == b
  {
    var long := b + " " + tail;
    assert long[|a|] == (a + " ")[|a|] == ' ';
    assert |a| >= |b|;
    assert long[|b|] == ' ';
    assert |b| >= |a|;
    assert forall i :: 0 <= i < |a| ==> a[i] == (a + " ")[i] == long[i] == b[i];
  }

  lemma {:induction false} FindMonthOfLabel(m: MonthIndex, tail: string, from: nat)
    requires from <= m
    ensures FindMonth(MonthName(m) + " " + tail, from) == Some(m)
    decreases 12 - from
  {
    var rest := MonthName(m) + " " + tail;
    assert MonthName(m) + " " <= rest;
    if from < m {
      if MonthName(from) + " " <= rest {
        SpaceEndedPrefix(MonthName(from), MonthName(m), tail);
        MonthNamesDistinct(from, m);
        assert false;
      }
      FindMonthOfLabel(m, tail, from + 1);
    }
  }

  lemma ParseTypeOfTag(t: WorkoutType)
    ensures ParseType(Capitalize(t.Tag()) + " on ") == Some(t)
  {
    CapitalizedTags();
    var running, cycling := Capitalize(RunningType.Tag()) + " on ", Capitalize(CyclingType.Tag()) + " on ";
    assert running[0] == 'R' && cycling[0] == 'C';
  }

  lemma {:induction false} ParseDateRoundTrip(m: MonthIndex, d: nat)
    ensures ParseDate(MonthName(m) + " " + Show(d)) == Some((m, d))
  {
    var rest := MonthName(m) + " " + Show(d);
    FindMonthOfLabel(m, Show(d), 0);
    assert rest[|MonthName(m)| + 1..] == Show(d);
    ValueOfShow(d);
  }

  /** Every label parses back to the type, month and day it was built from. */
  lemma {:induction false} DescriptionRoundTrip(t: WorkoutType, m: MonthIndex, d: nat)
    ensures ParseDescription(Describe(t, m, d)) == Some((t, m, d))
  {
    var head := Capitalize(t.Tag()) + " on ";
    var rest := MonthName(m) + " " + Show(d);
    var s := Describe(t, m, d);
    assert s == head + rest;
    assert s[..11] == head && s[11..] == rest;
    ParseTypeOfTag(t);
    ParseDateRoundTrip(m, d);
  }

  lemma HeadOf(head: string, t: WorkoutType)
    requires ParseType(head) == Some(t)
    ensures head == Capitalize(t.Tag()) + " on "
  {
  }

  lemma DateOf(rest: string, m: MonthIndex, d: nat)
    requires ParseDate(rest) == Some((m, d))
    ensures rest == MonthName(m) + " " + Show(d)
  {
    var found := FindMonth(rest, 0);
    assert found.Some? && found.value == m;
    var k := |MonthName(m)| + 1;
    var digits := rest[k..];
    assert Canonical(digits) && d == Value(digits);
    ShowOfValue(digits);
    assert rest[..k] == MonthName(m) + " ";
    assert rest == rest[..k] + digits;
  }

  /** Only labels parse: whatever `ParseDescription` accepts is exactly the label of what it returns. */
  lemma ParseSound(s: string, t: WorkoutType, m: MonthIndex, d: nat)
    requires ParseDescription(s) == Some((t, m, d))
    ensures s == Describe(t, m, d)
  {
    assert |s| >= 11;
    HeadOf(s[..11], t);
    DateOf(s[11..], m, d);
    assert s == s[..11] + s[11..];
  }

  /** Labels built from different types, months or days differ. */
  lemma DescribeInjective(t1: WorkoutType, m1: MonthIndex, d1: nat, t2: WorkoutType, m2: MonthIndex, d2: nat)
    requires Describe(t1, m1, d1) == Describe(t2, m2, d2)
    ensures t1 == t2 && m1 == m2 && d1 == d2
  {
    DescriptionRoundTrip(t1, m1, d1);
    DescriptionRoundTrip(t2, m2, d2);
  }

  /** A run logged on 14 April is labelled "Running on April 14". */
  lemma DescribeRunningExample()
    ensures Describe(RunningType, 3, 14) == "Running on April 14"
  {
    CapitalizedTags();
    assert Show(14) == "14";
    assert MonthName(3) == "April";
  }

  /** A ride logged on 5 December is labelled "Cycling on December 5". */
  lemma DescribeCyclingExample()
    ensures Describe(CyclingType, 11, 5) == "Cycling on December 5"
  {
    CapitalizedTags();
    assert Show(5) == "5";
    assert MonthName(11) == "December";
  }
}

=== FILE: optional.dfy ===
/** The optional value used for absent storage entries and absent object fields. */
module Optional {

  /** `None` is JavaScript's `null`/`undefined` for a missing value. */
  datatype Option<+T> = None | Some(value: T)
}

=== FILE: records.dfy ===
/**
  The workout records: the `Workout` base class and its `Running` and
  `Cycling` subclasses, as one immutable tagged datatype. Each constructor
  caches one derived metric (pace or speed), a description label and an id
  taken from the clock; the clock is an explicit `Moment` parameter.
 */
module Records {
  import opened Optional
  import opened Decimal
  import opened Description

  /** `[lat, lng]` of the map click; this layer does not check the bounds. */
  datatype Coords = Coords(lat: real, lng: real)

  /** What a constructor reads from the clock: `new Date()` (month and day) and `Date.now()` (milliseconds). */
  datatype Moment = Moment(month: MonthIndex, day: DayOfMonth, timestamp: nat)

  /**
    The value of a JavaScript division. `NonFinite` stands for the Infinity or
    NaN that a division by zero yields; the app neither traps nor checks it.
   */
  datatype Ratio = Finite(value: real) | NonFinite

  function Quotient(n: real, d: real): (r: Ratio)
    ensures r.Finite? <==> d != 0.0
    ensures r.Finite? ==> r.value * d == n
  {
    if d == 0.0 then NonFinite else Finite(n / d)
  }

  /** Number of trailing digits of the timestamp kept as the id. */
  const IdLength: nat := 10

  /** `(Date.now() + '').slice(-10)`: the last ten digits of the timestamp, or all of them when there are fewer. */
  function IdOf(timestamp: nat): (id: string)
    ensures |id| == if |Show(timestamp)| <= IdLength then |Show(timestamp)| else IdLength
    ensures AllDigits(id)
    ensures Value(id) == timestamp % Pow10(IdLength)
    ensures Show(timestamp)[|Show(timestamp)| - |id|..] == id
  {
    var s := Show(timestamp);
    ValueOfShow(timestamp);
    if |s| <= IdLength then
      ShortValue(timestamp, IdLength);
      s
    else
      ValueOfSuffix(s, IdLength);
      s[|s| - IdLength..]
  }

  /** Running pace in min/km (`calcPace`): minutes per kilometre. */
  function Pace(distance: real, duration: real): (r: Ratio)
    ensures r.Finite? <==> distance != 0.0
    ensures r.Finite? ==> r.value * distance == duration
  {
    Quotient(duration, distance)
  }

  lemma PerHour(v: real, distance: real, duration: real)
    requires v * (duration / 60.0) == distance
    ensures v * duration == 60.0 * distance
  {
    assert v * duration == 60.0 * (v * (duration / 60.0));
  }

  /** Cycling speed in km/h (`calcSpeed`): distance over the duration converted to hours. */
  function Speed(distance: real, duration: real): (r: Ratio)
    ensures r.Finite? <==> duration != 0.0
    ensures r.Finite? ==> r.value * duration == 60.0 * distance
  {
    var r := Quotient(distance, duration / 60.0);
    if r.Finite? then PerHour(r.value, distance, duration); r else r
  }

  datatype Workout =
    | Running(id: string, date: Moment, coords: Coords, distance: real, duration: real,
              cadence: Option<real>, pace: Ratio, description: string)
    | Cycling(id: string, date: Moment, coords: Coords, distance: real, duration: real,
              elevationGain: Option<real>, speed: Ratio, description: string)
  {
    /** The variant, whose tag is the object's `type` field. */
    function Type(): WorkoutType {
      if Running? then RunningType else CyclingType
    }
  }

  /** The cached fields agree with the fields they are computed from, as every constructor leaves them. */
  predicate WellFormed(w: Workout) {
    && w.id == IdOf(w.date.timestamp)
    && w.description == Describe(w.Type(), w.date.month, w.date.day)
    && (w.Running? ==> w.pace == Pace(w.distance, w.duration))
    && (w.Cycling? ==> w.speed == Speed(w.distance, w.duration))
  }

  /** `new Running(coords, distance, duration, cadence)` at moment `now`. */
  function MakeRunning(now: Moment, coords: Coords, distance: real, duration: real, cadence: Option<real>): (w: Workout)
    ensures w.Running? && w.date == now
    ensures WellFormed(w) && w.pace == Pace(distance, duration)
    ensures w.coords == coords && w.distance == distance && w.duration == duration && w.cadence == cadence
  {
    var pace := Pace(distance, duration);
    Running(IdOf(now.timestamp), now, coords, distance, duration, cadence,
            pace, Describe(RunningType, now.month, now.day))
  }

  /** `new Cycling(coords, distance, duration, elevationGain)` at moment `now`. */
  function MakeCycling(now: Moment, coords: Coords, distance: real, duration: real, elevationGain: Option<real>): (w: Workout)
    ensures w.Cycling? && w.date == now
    ensures WellFormed(w) && w.speed == Speed(distance, duration)
    ensures w.coords == coords && w.distance == distance && w.duration == duration && w.elevationGain == elevationGain
  {
    var speed := Speed(distance, duration);
    Cycling(IdOf(now.timestamp), now, coords, distance, duration, elevationGain,
            speed, Describe(CyclingType, now.month, now.day))
  }

  /** Two worked examples: 5 km in 30 min is a 6 min/km pace; 20 km in 60 min is 20 km/h. */
  lemma MetricExamples(now: Moment)
    ensures MakeRunning(now, Coords(51.5, -0.12), 5.0, 30.0, Some(150.0)).pace == Finite(6.0)
    ensures MakeCycling(now, Coords(51.5, -0.12), 20.0, 60.0, Some(400.0)).speed == Finite(20.0)
  {
  }
}

=== FILE: sequences.dfy ===
/** Order-keeping maps over sequences, as `Array.prototype.forEach` with a `push` builds them. */
module Sequences {

  /** The results of `f` on each element of `xs`, concatenated in the order of `xs`. */
  function FlatMap<A, B>(xs: seq<A>, f: A -> seq<B>): (ys: seq<B>)
    ensures (forall i :: 0 <= i < |xs| ==> |f(xs[i])| <= 1) ==> |ys| <= |xs|
    ensures (forall i :: 0 <= i < |xs| ==> |f(xs[i])| == 1) ==> |ys| == |xs|
  {
    if xs == [] then []
    else
      var rest := xs[1..];
      assert forall i :: 0 <= i < |rest| ==> rest[i] == xs[i + 1];
      f(xs[0]) + FlatMap(rest, f)
  }

  lemma FlatMapSingle<A, B>(x: A, f: A -> seq<B>)
    ensures FlatMap([x], f) == f(x)
  {
    assert [x][1..] == [];
  }

  /** Mapping a concatenation is concatenating the maps. */
  lemma {:induction false} FlatMapAppend<A, B>(a: seq<A>, b: seq<A>, f: A -> seq<B>)
    ensures FlatMap(a + b, f) == FlatMap(a, f) + FlatMap(b, f)
  {
    if a == [] {
      assert a + b == b;
    } else {
      assert (a + b)[0] == a[0] && (a + b)[1..] == a[1..] + b;
      assert FlatMap(a + b, f) == f(a[0]) + FlatMap(a[1..] + b, f);
      FlatMapAppend(a[1..], b, f);
      assert FlatMap(a, f) == f(a[0]) + FlatMap(a[1..], f);
    }
  }

  /** A property every result of `f` has, every element of the map has. */
  lemma {:induction false} FlatMapAll<A, B>(xs: seq<A>, f: A -> seq<B>, p: B -> bool)
    requires forall x, y :: y in f(x) ==> p(y)
    ensures forall y :: y in FlatMap(xs, f) ==> p(y)
  {
    if xs != [] {
      FlatMapAll(xs[1..], f, p);
    }
  }

  /** When `f` yields at most one result for every input, the map is as long as `xs` exactly when `f` yields one for each. */
  lemma {:induction false} FlatMapFull<A, B>(xs: seq<A>, f: A -> seq<B>)
    requires forall i :: 0 <= i < |xs| ==> |f(xs[i])| <= 1
    ensures |FlatMap(xs, f)| == |xs| <==> forall i :: 0 <= i < |xs| ==> |f(xs[i])| == 1
  {
    if xs != [] {
      var rest := xs[1..];
      assert forall i :: 0 <= i < |rest| ==> rest[i] == xs[i + 1];
      FlatMapFull(rest, f);
    }
  }
}

=== FILE: store.dfy ===
/**
  Persistence of the workout list: the plain field-sets `JSON.stringify`
  writes, the browser's key-value storage, and the reconstruction that
  `_getLocalStorage` runs over stored field-sets to turn them back into
  records (dispatch on the `type` tag, re-running the constructor).
 */
module Store {
  import opened Optional
  import opened Description
  import opened Records
  import opened Sequences

  /**
    A stored workout object after a JSON round trip: its own fields, data only.
    `cadence`/`elevationGain` and `pace`/`speed` are absent on the other
    variant. The ISO `date` string is not kept: nothing reads it back.
   */
  datatype FieldSet = FieldSet(
    typeTag: string, id: string, coords: Coords, distance: real, duration: real,
    cadence: Option<real>, elevationGain: Option<real>,
    pace: Option<Ratio>, speed: Option<Ratio>, description: string)

  /** An element of the in-memory list: a record built in this session, or a field-set loaded from storage as is. */
  datatype Entry = Live(workout: Workout) | Raw(fields: FieldSet)

  /** The field-set `JSON.stringify` writes for a record. */
  function ToFields(w: Workout): (f: FieldSet)
    ensures f.typeTag == w.Type().Tag()
    ensures f.id == w.id && f.coords == w.coords && f.distance == w.distance && f.duration == w.duration
    ensures f.description == w.description
    ensures w.Running? ==> f.cadence == w.cadence && f.pace == Some(w.pace) && f.elevationGain.None? && f.speed.None?
    ensures w.Cycling? ==> f.elevationGain == w.elevationGain && f.speed == Some(w.speed) && f.cadence.None? && f.pace.None?
  {
    match w
    case Running(id, _, coords, distance, duration, cadence, pace, description) =>
      FieldSet("running", id, coords, distance, duration, cadence, None, Some(pace), None, description)
    case Cycling(id, _, coords, distance, duration, elevationGain, speed, description) =>
      FieldSet("cycling", id, coords, distance, duration, None, elevationGain, None, Some(speed), description)
  }

  function Plain(e: Entry): FieldSet {
    match e
    case Live(w) => ToFields(w)
    case Raw(f) => f
  }

  /** The list as `JSON.stringify` followed by `JSON.parse` leaves it: one field-set per entry, in order. */
  function Serialize(entries: seq<Entry>): (data: seq<FieldSet>)
    ensures |data| == |entries|
    ensures forall i :: 0 <= i < |entries| ==> data[i] == Plain(entries[i])
  {
    seq(|entries|, i requires 0 <= i < |entries| => Plain(entries[i]))
  }

  function Lives(ws: seq<Workout>): (entries: seq<Entry>)
    ensures |entries| == |ws|
    ensures forall i :: 0 <= i < |ws| ==> entries[i] == Live(ws[i])
  {
    seq(|ws|, i requires 0 <= i < |ws| => Live(ws[i]))
  }

  function Raws(data: seq<FieldSet>): (entries: seq<Entry>)
    ensures |entries| == |data|
    ensures forall i :: 0 <= i < |data| ==> entries[i] == Raw(data[i])
  {
    seq(|data|, i requires 0 <= i < |data| => Raw(data[i]))
  }

  /** Field-sets loaded as they are serialize back unchanged. */
  lemma SerializeRaws(data: seq<FieldSet>)
    ensures Serialize(Raws(data)) == data
  {
  }

  /** Saving a list with one more entry at the end writes one more object at the end. */
  lemma SerializeSnoc(entries: seq<Entry>, e: Entry)
    ensures Serialize(entries + [e]) == Serialize(entries) + [Plain(e)]
  {
    var lhs, rhs := Serialize(entries + [e]), Serialize(entries) + [Plain(e)];
    assert |lhs| == |rhs|;
    forall i | 0 <= i < |lhs| ensures lhs[i] == rhs[i] {
      if i < |entries| { assert (entries + [e])[i] == entries[i]; }
    }
  }

  // ---------------------------------------------------------------------
  // Browser storage

  /** `localStorage`: text values by key, here already decoded to field-sets. */
  type Storage = map<string, seq<FieldSet>>

  /** The one key the app uses. */
  const Key: string := "workouts"

  /** `localStorage.getItem(key)` followed by `JSON.parse`: `None` is `null`. */
  function GetItem(s: Storage, key: string): (r: Option<seq<FieldSet>>)
    ensures r.Some? <==> key in s
    ensures r.Some? ==> r.value == s[key]
  {
    if key in s then Some(s[key]) else None
  }

  /** `localStorage.setItem(key, …)`: overwrites the value under `key` and nothing else. */
  function SetItem(s: Storage, key: string, data: seq<FieldSet>): (r: Storage)
    ensures r.Keys == s.Keys + {key}
    ensures GetItem(r, key) == Some(data)
    ensures forall k :: k in s && k != key ==> r[k] == s[k]
  {
    s[key := data]
  }

  /** `localStorage.removeItem(key)`: drops `key` and nothing else. */
  function RemoveItem(s: Storage, key: string): (r: Storage)
    ensures r.Keys == s.Keys - {key}
    ensures GetItem(r, key).None?
    ensures forall k :: k in r ==> r[k] == s[k]
  {
    s - {key}
  }

  /** A save replaces the previous value entirely: the last writer wins. */
  lemma SetItemOverwrites(s: Storage, key: string, a: seq<FieldSet>, b: seq<FieldSet>)
    ensures SetItem(SetItem(s, key, a), key, b) == SetItem(s, key, b)
  {
  }

  /** Removing after saving leaves what removing alone leaves. */
  lemma RemoveAfterSet(s: Storage, key: string, data: seq<FieldSet>)
    ensures RemoveItem(SetItem(s, key, data), key) == RemoveItem(s, key)
  {
  }

  // ---------------------------------------------------------------------
  // Reconstruction

  /** The `type` values the reconstruction loop recognises. */
  predicate KnownTag(f: FieldSet) {
    f.typeTag == "running" || f.typeTag == "cycling"
  }

  /** One pass of the `forEach` body: a new record of the tagged variant from the stored base fields, or nothing. */
  function Revive(f: FieldSet, now: Moment): (r: Option<Workout>)
    ensures r.Some? <==> KnownTag(f)
    ensures r.Some? ==> && r.value.Type().Tag() == f.typeTag
                        && r.value.coords == f.coords && r.value.distance == f.distance
                        && r.value.duration == f.duration && r.value.date == now
                        && WellFormed(r.value)
    ensures r.Some? && r.value.Running? ==> r.value.cadence == f.cadence
    ensures r.Some? && r.value.Cycling? ==> r.value.elevationGain == f.elevationGain
  {
    if f.typeTag == "running" then Some(MakeRunning(now, f.coords, f.distance, f.duration, f.cadence))
    else if f.typeTag == "cycling" then Some(MakeCycling(now, f.coords, f.distance, f.duration, f.elevationGain))
    else None
  }

  /** What one entry adds to `fixedWorkouts`: one record or none. */
  function Revived(f: FieldSet, now: Moment): (ws: seq<Workout>)
    ensures |ws| <= 1
    ensures |ws| == 1 <==> KnownTag(f)
    ensures forall w :: w in ws ==> WellFormed(w) && w.date == now
  {
    match Revive(f, now)
    case Some(w) => [w]
    case None => []
  }

  /** The record the loop body pushes for each tag: a running record, a cycling record, or none. */
  lemma RevivedByTag(f: FieldSet, now: Moment)
    ensures f.typeTag == "running" ==> Revived(f, now) == [MakeRunning(now, f.coords, f.distance, f.duration, f.cadence)]
    ensures f.typeTag == "cycling" ==> Revived(f, now) == [MakeCycling(now, f.coords, f.distance, f.duration, f.elevationGain)]
    ensures !KnownTag(f) ==> Revived(f, now) == []
  {
  }

  function Reviver(now: Moment): FieldSet -> seq<Workout> {
    f => Revived(f, now)
  }

  /** `fixedWorkouts` after `data.forEach(...)`: the recognised entries rebuilt, in order. */
  function Reconstruct(data: seq<FieldSet>, now: Moment): (ws: seq<Workout>)
    ensures |ws| <= |data|
  {
    var f := Reviver(now);
    assert forall i :: 0 <= i < |data| ==> |f(data[i])| <= 1;
    FlatMap(data, f)
  }

  /**
    Reconstruction drops only unrecognised entries, and every record it makes
    is a fresh, well-formed record of the loading moment.
   */
  lemma ReconstructShape(data: seq<FieldSet>, now: Moment)
    ensures |Reconstruct(data, now)| <= |data|
    ensures |Reconstruct(data, now)| == |data| <==> forall i :: 0 <= i < |data| ==> KnownTag(data[i])
    ensures forall w :: w in Reconstruct(data, now) ==> WellFormed(w) && w.date == now
  {
    var f := Reviver(now);
    assert forall i :: 0 <= i < |data| ==> |f(data[i])| <= 1;
    FlatMapFull(data, f);
    FlatMapAll(data, f, w => WellFormed(w) && w.date == now);
  }

  /** Reconstruction works entry by entry: it distributes over concatenation. */
  lemma ReconstructAppend(a: seq<FieldSet>, b: seq<FieldSet>, now: Moment)
    ensures Reconstruct(a + b, now) == Reconstruct(a, now) + Reconstruct(b, now)
  {
    FlatMapAppend(a, b, Reviver(now));
  }

  lemma ReconstructSingle(f: FieldSet, now: Moment)
    ensures Reconstruct([f], now) == Revived(f, now)
  {
    FlatMapSingle(f, Reviver(now));
  }

  lemma ReconstructSnoc(data: seq<FieldSet>, i: nat, now: Moment)
    requires i < |data|
    ensures Reconstruct(data[..i + 1], now) == Reconstruct(data[..i], now) + Revived(data[i], now)
  {
    assert data[..i + 1] == data[..i] + [data[i]];
    ReconstructAppend(data[..i], [data[i]], now);
    ReconstructSingle(data[i], now);
  }

  /**
    Order is kept: entry `i` of the stored list, when its tag is known, becomes
    the record at position `k` (the number of records rebuilt from the entries
    before it); an entry with another tag contributes nothing.
   */
  lemma ReconstructKeepsOrder(data: seq<FieldSet>, now: Moment, i: nat)
    requires i < |data|
    ensures var k := |Reconstruct(data[..i], now)|;
            && (KnownTag(data[i]) ==> k < |Reconstruct(data, now)| && Reconstruct(data, now)[k] == Revive(data[i], now).value)
            && (!KnownTag(data[i]) ==> Reconstruct(data[..i + 1], now) == Reconstruct(data[..i], now))
  {
    var before, rest := data[..i], data[i + 1..];
    assert data == before + [data[i]] + rest;
    assert data[..i + 1] == before + [data[i]];
    ReconstructAppend(before + [data[i]], rest, now);
    ReconstructAppend(before, [data[i]], now);
    ReconstructSingle(data[i], now);
  }

  /** The stored base fields on which reconstruction depends: tag, coordinates, distance, duration and the variant's measure. */
  predicate SameBase(f: FieldSet, g: FieldSet) {
    && f.typeTag == g.typeTag && f.coords == g.coords
    && f.distance == g.distance && f.duration == g.duration
    && (f.typeTag == "running" ==> f.cadence == g.cadence)
    && (f.typeTag == "cycling" ==> f.elevationGain == g.elevationGain)
  }

  /**
    Derived fields are never read from storage: two stored lists that agree on
    the base fields reconstruct to the same records, whatever id, pace, speed
    or description they carry.
   */
  lemma {:induction false} ReconstructIgnoresDerived(a: seq<FieldSet>, b: seq<FieldSet>, now: Moment)
    requires |a| == |b|
    requires forall i :: 0 <= i < |a| ==> SameBase(a[i], b[i])
    ensures Reconstruct(a, now) == Reconstruct(b, now)
  {
    if a != [] {
      assert a == [a[0]] + a[1..] && b == [b[0]] + b[1..];
      ReconstructIgnoresDerived(a[1..], b[1..], now);
      ReconstructAppend([a[0]], a[1..], now);
      ReconstructAppend([b[0]], b[1..], now);
      ReconstructSingle(a[0], now);
      ReconstructSingle(b[0], now);
      assert Revived(a[0], now) == Revived(b[0], now);
    }
  }

  /** The record a constructor re-run at `now` makes of `w`: same variant and base fields, fresh date, id and label. */
  function Restamp(w: Workout, now: Moment): Workout {
    match w
    case Running(_, _, coords, distance, duration, cadence, _, _) =>
      MakeRunning(now, coords, distance, duration, cadence)
    case Cycling(_, _, coords, distance, duration, elevationGain, _, _) =>
      MakeCycling(now, coords, distance, duration, elevationGain)
  }

  /** Restamping a well-formed record keeps everything but its date, id and description. */
  lemma RestampKeeps(w: Workout, now: Moment)
    requires WellFormed(w)
    ensures var r := Restamp(w, now);
            && r.Type() == w.Type() && r.coords == w.coords && r.distance == w.distance && r.duration == w.duration
            && (r.Running? ==> r.cadence == w.cadence && r.pace == w.pace)
            && (r.Cycling? ==> r.elevationGain == w.elevationGain && r.speed == w.speed)
            && r.date == now && WellFormed(r)
  {
  }

  lemma SaveLivesAppend(a: seq<Workout>, b: seq<Workout>)
    ensures Serialize(Lives(a + b)) == Serialize(Lives(a)) + Serialize(Lives(b))
  {
  }

  /** A record's own field-set revives, at `now`, to the record restamped at `now`. */
  lemma ReviveToFields(w: Workout, now: Moment)
    ensures Revive(ToFields(w), now) == Some(Restamp(w, now))
  {
  }

  lemma ReconstructSaved(w: Workout, now: Moment)
    ensures Reconstruct(Serialize(Lives([w])), now) == [Restamp(w, now)]
  {
    assert Serialize(Lives([w])) == [ToFields(w)];
    ReconstructSingle(ToFields(w), now);
    ReviveToFields(w, now);
  }

  /**
    Saving records and reconstructing them gives the same records, in the same
    order, except that each carries the reconstruction's date, id and label.
   */
  lemma {:induction false} SaveThenReconstruct(ws: seq<Workout>, now: Moment)
    ensures var r := Reconstruct(Serialize(Lives(ws)), now);
            && |r| == |ws|
            && forall i :: 0 <= i < |ws| ==> r[i] == Restamp(ws[i], now)
  {
    if ws != [] {
      var n := |ws| - 1;
      assert ws == ws[..n] + [ws[n]];
      SaveThenReconstruct(ws[..n], now);
      SaveLivesAppend(ws[..n], [ws[n]]);
      ReconstructAppend(Serialize(Lives(ws[..n])), Serialize(Lives([ws[n]])), now);
      ReconstructSaved(ws[n], now);
    }
  }

  /** Re-reviving a revived entry at a later moment is reviving the entry then. */
  lemma ReviveTwice(f: FieldSet, now: Moment, later: Moment)
    ensures Reconstruct(Serialize(Lives(Revived(f, now))), later) == Revived(f, later)
  {
    if KnownTag(f) {
      var w := Revive(f, now).value;
      ReconstructSaved(w, later);
    } else {
      assert Serialize(Lives([])) == [];
    }
  }

  /** Reconstructing what a reconstruction saved gives what reconstructing the original gives. */
  lemma {:induction false} ReconstructTwice(data: seq<FieldSet>, now: Moment, later: Moment)
    ensures Reconstruct(Serialize(Lives(Reconstruct(data, now))), later) == Reconstruct(data, later)
  {
    if data != [] {
      var first, rest := data[0], data[1..];
      assert data == [first] + rest;
      ReconstructTwice(rest, now, later);
      var one, fixedRest := Revived(first, now), Reconstruct(rest, now);
      ReconstructAppend([first], rest, now);
      ReconstructSingle(first, now);
      SaveLivesAppend(one, fixedRest);
      ReconstructAppend(Serialize(Lives(one)), Serialize(Lives(fixedRest)), later);
      ReviveTwice(first, now, later);
      ReconstructAppend([first], rest, later);
      ReconstructSingle(first, later);
    }
  }

  /**
    The `forEach` loop of `_getLocalStorage`, pushing onto `fixedWorkouts`.
   */
  method RestoreWorkouts(data: seq<FieldSet>, now: Moment) returns (fixed: seq<Workout>)
    ensures fixed == Reconstruct(data, now)
    ensures |fixed| <= |data|
    ensures forall i :: 0 <= i < |fixed| ==> WellFormed(fixed[i]) && fixed[i].date == now
  {
    fixed := [];
    var i := 0;
    while i < |data|
      invariant 0 <= i <= |data|
      invariant fixed == Reconstruct(data[..i], now)
    {
      var f := data[i];
      ReconstructSnoc(data, i, now);
      RevivedByTag(f, now);
      if f.typeTag == "running" {
        fixed := fixed + [MakeRunning(now, f.coords, f.distance, f.duration, f.cadence)];
      }
      if f.typeTag == "cycling" {
        fixed := fixed + [MakeCycling(now, f.coords, f.distance, f.duration, f.elevationGain)];
      }
      i := i + 1;
    }
    assert data[..|data|] == data;
    ReconstructShape(data, now);
  }
}

=== FILE: validation.dfy ===
/**
  The two input checks of `_newWorkout`: `validInputs` (every input is a
  finite number) and `allPositive` (every input is greater than zero).
 */
module Validation {

  /** A JavaScript number as `+input.value` yields it: a finite value, NaN or an infinity. */
  datatype JsNumber = Num(value: real) | NaN | PositiveInfinity | NegativeInfinity

  /** `Number.isFinite(x)`. */
  function IsFinite(x: JsNumber): (ok: bool)
    ensures ok <==> x != NaN && x != PositiveInfinity && x != NegativeInfinity
  {
    x.Num?
  }

  /** `x > 0`: true of positive values and of +Infinity, false of NaN. */
  function GreaterThanZero(x: JsNumber): (ok: bool)
    ensures x == NaN || x == NegativeInfinity ==> !ok
    ensures x.Num? ==> (ok <==> x.value > 0.0)
    ensures x == PositiveInfinity ==> ok
  {
    match x
    case Num(v) => v > 0.0
    case PositiveInfinity => true
    case _ => false
  }

  /** `validInputs(...inputs)`. */
  function ValidInputs(inputs: seq<JsNumber>): (ok: bool)
    ensures ok <==> forall x :: x in inputs ==> x.Num?
  {
    forall i :: 0 <= i < |inputs| ==> IsFinite(inputs[i])
  }

  /** `allPositive(...inputs)`. */
  function AllPositive(inputs: seq<JsNumber>): (ok: bool)
    ensures ok <==> forall x :: x in inputs ==> x == PositiveInfinity || (x.Num? && x.value > 0.0)
  {
    forall i :: 0 <= i < |inputs| ==> GreaterThanZero(inputs[i])
  }

  /** The guard of `_newWorkout`: a submission goes on unless `!validInputs(...) || !allPositive(...)`. */
  predicate Accepts(inputs: seq<JsNumber>) {
    ValidInputs(inputs) && AllPositive(inputs)
  }

  /** The two checks together admit exactly the inputs that are all finite and strictly positive. */
  lemma AcceptsIffFinitePositive(inputs: seq<JsNumber>)
    ensures Accepts(inputs) <==> forall i :: 0 <= i < |inputs| ==> inputs[i].Num? && inputs[i].value > 0.0
  {
  }

  /** Neither check alone suffices: +Infinity passes `allPositive` only, and a negative number passes `validInputs` only. */
  lemma BothChecksNeeded()
    ensures AllPositive([PositiveInfinity]) && !ValidInputs([PositiveInfinity])
    ensures ValidInputs([Num(-1.0)]) && !AllPositive([Num(-1.0)])
  {
    assert [PositiveInfinity][0] == PositiveInfinity;
    assert [Num(-1.0)][0] == Num(-1.0);
  }

  /** A cycling submission with an elevation gain of zero is refused, although zero elevation gain is a real ride. */
  lemma ZeroElevationRejected(distance: real, duration: real)
    ensures !Accepts([Num(distance), Num(duration), Num(0.0)])
  {
    assert !GreaterThanZero([Num(distance), Num(duration), Num(0.0)][2]);
  }
}
